=== FILE: README.md ===
# nbmovie core in Dafny

nbmovie is a small Flask video-search site that comes in two variants:

- `app.py` is the base application.
- `MyCloudSite/app.py` is the extended application. It adds more built-in sources, visit logging and an admin dashboard.

Both variants work against "aggregator" endpoints. An aggregator answers a search with a `list` of items. It answers a detail request with `vod_play_url`, a delimiter-encoded set of playlists, and in the base application's case also `vod_play_from`, which names those playlists.

This project models the deterministic core of both variants as pure Dafny functions and proves properties about them:

- **PyStr** (`pystr.dfy`): the Python string primitives the core relies on.
  - `str.split(sep)` comes with its inverse `Join` and with round-trip and piece-count lemmas.
  - `in` on strings is modelled through a leftmost `IndexOf`.
  - It also has ASCII lower-casing and the decimal printing used by f-strings.
- **Playlist** (`playlist.dfy`): the playlist grammar.
  - Alternates are separated by `$$$`, episodes by `#`, and fields by `$`.
  - Episode parsing uses the last field as the URL and the one before it as the name. A piece with no name gets the fallback name "第N集".
  - The two playlist-selection rules: by content (`.m3u8`) in the extended application, and by source name (`m3u8`/`hls`) in the base one.
- **Registry** (`registry.dfy`): the source registry built at start-up.
  - The built-ins come first, followed by the filtered and renamed bundle sites.
  - The list is then deduplicated by `api`.
  - The two deduplication loops are modelled and proved equal to each other and to a declarative "keep the first occurrence" reference.
- **Upstream** (`upstream.dfy`): what `search_api` and `get_video_details` make of a decoded aggregator answer.
- **Handlers** (`handlers.dfy`): the default-source fallback of `/search`, and the episode-index clamp and episode lookup of `/play`.
- **Visits** (`visits.dfy`): the local-address rule of the IP geolocation, the labels the extended application logs, and the dashboard's play and page-view counts.

I/O is not modelled. Every HTTP request and JSON decode becomes an input value:

- A failed request, a non-JSON body or a missing key becomes `None`.
- The geolocation answer is an `Option<GeoAnswer>` parameter.
- The bundle downloads become a sequence of `Fetched` values, listed in completion order.

The built-in sources win endpoint conflicts only through list order. They come first, and deduplication keeps the first entry with each endpoint. There is no separate precedence rule. `Registry.KeepFirstPrefix` and `Handlers.DefaultSearchIsLzi` prove the resulting precedence.

Neither variant filters episodes by URL suffix: every `#`-piece of the selected playlist becomes an episode. The fallback name of an episode without a name field is "第N集", where N is its position plus one.

## Model

| member | source | states |
|---|---|---|
| PyStr.IndexOf | MyCloudSite/app.py:170 | The result is the leftmost position where the substring occurs, and None exactly when it occurs nowhere. This is the meaning of Python's `in` on strings. |
| PyStr.ContainsChar | app.py:109-110 | Containment of a one-character string is membership of that character. |
| PyStr.Split | MyCloudSite/app.py:165-182 | `str.split` with a non-empty separator always gives at least one piece. The pieces joined back with the separator give the input. No piece holds the separator, and every piece but the last is cut at the leftmost, non-overlapping occurrence (so `"a$$$$b".split("$$$")` is `["a", "$b"]`). There is exactly one piece iff the separator is absent, so `"".split("#") == [""]`. |
| PyStr.LeftmostCut | MyCloudSite/app.py:165 | At the leftmost occurrence the string is head, separator and tail, and the head is clean: it holds no separator and does not start one across the joint. |
| PyStr.SplitAbsent | app.py:98-99 | Splitting a string that lacks the separator gives the string itself as the only piece. |
| PyStr.SplitCharCount | MyCloudSite/app.py:181 | Splitting on one character gives one more piece than the character's number of occurrences. |
| PyStr.SplitJoin | app.py:98 | Joining pieces that do not contain (or start into) the separator and splitting again gives the pieces back. |
| PyStr.SplitJoinChar | app.py:109 | Joining separator-free pieces with a one-character separator and splitting again gives the pieces back. |
| PyStr.AsciiLower | app.py:103 | Lower-casing keeps the length, maps each upper-case ASCII letter to its lower-case partner (code point plus 32), leaves no upper-case ASCII letter and changes no other character. |
| PyStr.NatToString | app.py:112 | The decimal text of a number is non-empty and all digits, with no leading zero except for 0 itself. |
| PyStr.NatToStringRoundTrip | app.py:112 | Reading back the decimal digits that the episode-number f-string prints gives the number. |
| PyStr.IntToString | MyCloudSite/app.py:223 | The printed integer starts with '-' exactly when it is negative. The rest is a non-empty run of decimal digits, with no leading zero except for 0 itself, that reads back as the absolute value. |
| Playlist.FallbackName | MyCloudSite/app.py:184 | The fallback episode name starts with 第 and ends with 集. Between them stand decimal digits, with no leading zero, that read back as the position plus one. It holds neither separator. |
| Playlist.ParseEpisode | MyCloudSite/app.py:182-185 | The episode keeps its position. Its URL and name hold no `$`. A piece without `$` is all URL and gets the fallback name. Otherwise the piece ends in `name$url`, which is preceded by a `$` unless those are the only two fields. No `#` is introduced. |
| Playlist.SplitEpisodes | app.py:109-113 | There is one episode per `#`-piece, that is `count('#') + 1` of them. Episode i is the i-th `#`-piece parsed at position i: its URL is the last `$`-field, its name the one before, or 第{i+1}集 when the piece has no `$`. No name or URL holds a separator. |
| Playlist.EpisodesIfPresent | MyCloudSite/app.py:179-185 | The guarded split gives no episodes exactly for an empty playlist. A non-empty playlist gives exactly the unguarded split, that is `count('#') + 1` episodes parsed piece by piece. |
| Playlist.EmptyPlaylistOneEpisode | app.py:109-113 | Without the guard, an empty playlist gives one episode named 第1集 with an empty URL. |
| Playlist.EpisodeRoundTrip | MyCloudSite/app.py:182-184 | Parsing `name$url` gives back the episode whose name and URL are `$`-free. |
| Playlist.DecodeEncode | app.py:109-113 | Parsing the `#`/`$` encoding of a non-empty, separator-free episode list gives the list back. |
| Playlist.DecodeEncodeIfPresent | MyCloudSite/app.py:179-185 | With the emptiness guard, the round trip holds for every separator-free list, the empty one included. |
| Playlist.ParseNamedEpisode | MyCloudSite/app.py:182-184 | A piece `pre$name$url` gives exactly that name and URL: the fields are read from the end. |
| Playlist.TwoPieceEpisodes | app.py:109-113 | A playlist `a#b` gives exactly the episodes parsed from `a` at 0 and from `b` at 1. |
| Playlist.ExampleTwoEpisodes | MyCloudSite/app.py:181-185 | `A$name1$url1#B$name2$url2` gives episodes (0, name1, url1) and (1, name2, url2). |
| Playlist.FirstIndex | MyCloudSite/app.py:169-173 | The search-and-break loop gives the first matching position, or None when nothing matches. |
| Playlist.ContentChoice | MyCloudSite/app.py:165-177 | The chosen alternate is the first one containing `.m3u8`, or alternate 0 when none does. |
| Playlist.IsM3u8Chunk | MyCloudSite/app.py:170 | No contract: the test `".m3u8" in chunk`. ContentChoice and SecondAlternateChosen state what it selects. |
| Playlist.SelectPlaylistByContent | MyCloudSite/app.py:165-177 | The selected playlist is one of the `$$$`-segments, and it is either an `.m3u8` segment or segment 0. |
| Playlist.NameChoice | app.py:101-106 | If the first name whose lower-cased form contains `m3u8` or `hls` is at m, the choice is m when such a playlist exists and 0 otherwise. With no such name the choice is 0. |
| Playlist.IsHlsName | app.py:103 | No contract: the test `"m3u8" in name.lower() or "hls" in name.lower()`. NameChoice and NamesAfterFirstMatchIgnored state what it selects. |
| Playlist.SelectPlaylistByName | app.py:98-106 | The selected playlist is one of the `$$$`-segments of `vod_play_url`. |
| Playlist.NamesAfterFirstMatchIgnored | app.py:102-106 | Changing the names after the first HLS name never changes the choice. |
| Playlist.SecondAlternateChosen | MyCloudSite/app.py:165-173 | For two alternates that `$$$` separates cleanly (they may hold `$` and `#`), when only the second mentions `.m3u8` it is chosen over the first. |
| Playlist.ExampleSelection | MyCloudSite/app.py:165-177 | `seg0$$$seg1.m3u8` selects `seg1.m3u8`. |
| Registry.ShowName | app.py:43 | No contract: how the f-string prints a name that may be missing (`None`). Tagged and FilterSitesExact state its use. |
| Registry.Rename | app.py:43-44 | No contract: the renamed source with the api and type kept. FilterSitesExact states it per site. |
| Registry.Tagged | MyCloudSite/app.py:106 | The display name of a bundle site is "[prefix] " followed by exactly the site's name. |
| Registry.FilterSites | app.py:40-44 | The base filter keeps only type 0 or 1 sites, and each is renamed with the "[prefix] " tag. |
| Registry.FilterSitesConcat | app.py:41-44 | The filter distributes over concatenation, so site order is kept. |
| Registry.FilterSitesExact | app.py:41-44 | Each site contributes its renamed self (api and type kept) exactly when its type is 0 or 1, and nothing otherwise, in place. |
| Registry.FilterSitesCompleteApis | MyCloudSite/app.py:106 | When no kept site lacks `name` or `api`, every kept source has an endpoint. |
| Registry.FilterSitesStrict | MyCloudSite/app.py:98-108 | The extended filter drops the whole bundle if a kept site lacks `name` or `api`, and otherwise equals the base filter. Every source it yields has an endpoint. |
| Registry.AllFetchedExtended | MyCloudSite/app.py:113-117 | Every fetched source of the extended application has an endpoint. |
| Registry.ApisSnoc | MyCloudSite/app.py:125 | Appending an entry adds its endpoint to the set of seen endpoints. |
| Registry.FirstWithApi | MyCloudSite/app.py:122-124 | This is the position of the first entry with the given endpoint. |
| Registry.KeepFirstApis | MyCloudSite/app.py:119-126 | Deduplication keeps every endpoint of the input and adds none. |
| Registry.KeepFirstNoDuplicates | MyCloudSite/app.py:119-126 | After deduplication no two sources share an endpoint. |
| Registry.KeepFirstPositions | MyCloudSite/app.py:119-126 | Each kept source is the first input entry with its endpoint, and kept sources appear in input order. |
| Registry.KeepFirstSpec | MyCloudSite/app.py:119-126 | Deduplication yields the same endpoint set, no duplicates, the first occurrence of each endpoint and the input order. |
| Registry.KeepFirstPrefix | MyCloudSite/app.py:111-126 | Deduplicating built-ins followed by fetched sites starts with the deduplicated built-ins. No later entry reuses a built-in endpoint, so a built-in wins every conflict. |
| Registry.SeenSetLoop | MyCloudSite/app.py:120-125 | No contract: one step per entry of the seen-set loop. SeenSetLoopInvariant relates it to KeepFirst. |
| Registry.DedupSeenSet | MyCloudSite/app.py:119-126 | No contract: the seen-set loop from an empty set. DedupSeenSetIsKeepFirst proves it is KeepFirst. |
| Registry.SeenSetLoopInvariant | MyCloudSite/app.py:120-125 | The seen-set loop's state after any prefix is (the prefix's endpoints, the prefix deduplicated), and it finishes as the reference. |
| Registry.DedupSeenSetIsKeepFirst | MyCloudSite/app.py:119-126 | The seen-set loop computes the keep-first reference. |
| Registry.RemovalTracksSeenSet | app.py:59-64 | The set-and-remove loop, started with the pending set as the complement of the seen set on the remaining endpoints, computes what the seen-set loop computes. |
| Registry.RemovalLoop | app.py:61-64 | No contract: one step per entry of the set-and-remove loop. RemovalTracksSeenSet relates it to SeenSetLoop. |
| Registry.DedupByRemoval | app.py:59-65 | No contract: the set-and-remove loop started from all endpoints. DedupLoopsAgree proves it is KeepFirst. |
| Registry.DedupLoopsAgree | app.py:59-65 | The set-and-remove loop computes exactly what the seen-set loop computes, and so keeps the first occurrence of each endpoint in order with no duplicates. |
| Registry.ConcatHaveApis | MyCloudSite/app.py:111-117 | Concatenating two lists whose entries all have an endpoint gives such a list. |
| Registry.ExtendedInputsHaveApis | MyCloudSite/app.py:111-117 | Every entry of the extended application's undeduplicated registry has an endpoint. |
| Registry.LoadSourcesExtended | MyCloudSite/app.py:111-126 | The extended registry keeps the first occurrence of every endpoint of built-ins plus fetched sites. It starts with the deduplicated built-ins, and every entry has an endpoint. |
| Registry.LoadSourcesBase | app.py:52-65 | The base registry keeps the first occurrence of every endpoint of built-ins plus fetched sites, and its first entry is the LZI built-in. |
| Registry.KeepFirstSnoc | MyCloudSite/app.py:122-125 | One more entry is kept exactly when its endpoint has not been seen, and then it is appended at the end. |
| Registry.RepeatDropped | MyCloudSite/app.py:122-125 | Appending an entry whose endpoint is already listed does not change the deduplicated list. |
| Registry.KeepFirstOfDistinct | MyCloudSite/app.py:119-126 | A list in which no two entries share an endpoint deduplicates to itself. |
| Registry.ExtendedBuiltinsDeduplicated | MyCloudSite/app.py:85-91 | The extended built-ins deduplicate to their first four entries: the second LZI entry is dropped. |
| Upstream.ToMovie | MyCloudSite/app.py:146-152 | No contract: the hit built from one list item. SearchResults states its fields. |
| Upstream.SearchResults | MyCloudSite/app.py:143-153 | There is one hit per list item, in list order, carrying that item's id, name, picture and remarks, each tagged with the queried endpoint. There are no hits when the list is missing. |
| Upstream.SearchResultsKeepOrder | app.py:74-84 | The hits for `a + b` are the hits for `a` followed by the hits for `b`. |
| Upstream.DetailsExtended | MyCloudSite/app.py:163-194 | A detail exists iff the list is non-empty. It takes the first entry's id, title and picture, and episodes from the guarded split of the content-selected playlist. |
| Upstream.DetailsBase | app.py:93-119 | A detail exists iff the list is non-empty. It takes the first entry's id, title and picture and the queried endpoint. Its episodes are the unguarded split of the name-selected playlist, so there is always at least one. |
| Upstream.MissingPlaylist | MyCloudSite/app.py:165-185 | An entry without playlist text gets no episodes in the extended application and one empty episode 第1集 in the base one. |
| Handlers.SearchApi | app.py:134 | A non-empty `source_api` is used as given. A missing or empty one falls back to the first source's endpoint when there is one. |
| Handlers.DefaultSearchIsLzi | MyCloudSite/app.py:211-212 | Whatever the bundles brought, a search without `source_api` goes to the LZI endpoint in both applications. |
| Handlers.ClampEpisodeIndex | MyCloudSite/app.py:226 | An index at or past the episode count becomes 0, and any smaller index (negative included) is kept. |
| Handlers.PyIndex | MyCloudSite/app.py:227 | Python indexing succeeds exactly on [-n, n), counting negative indices from the end. |
| Handlers.PlayAsWritten | MyCloudSite/app.py:224-228 | `/play` shows the failure message iff there is no detail. Otherwise it renders Python's `episodes[i]` for the clamped index i. It fails with IndexError exactly when i lies outside [-n, n) for n episodes, which includes every index when the list is empty. |
| Handlers.EmptyEpisodesCrashPlay | MyCloudSite/app.py:179-180 | A detail entry without playlist text makes the extended `/play` fail with IndexError. |
| Handlers.FarNegativeIndexCrashesPlay | app.py:144-145 | An index below minus the episode count passes the clamp and fails with IndexError. |
| Handlers.PlaySafe | MyCloudSite/app.py:225-228 | The corrected `/play` never fails. It shows the failure message iff there is no detail or no episode, and otherwise the requested in-range episode or episode 0. |
| Handlers.PlaySafeAgrees | app.py:143-145 | For existing episodes and non-negative indices, the corrected route renders what the written one renders. |
| Handlers.BasePlayNeverCrashes | app.py:142-145 | In the base application a non-negative index always finds an episode. |
| Visits.IsLocalIp | MyCloudSite/app.py:48 | No contract: the exact address `127.0.0.1`, or a `192.168` or `10.` prefix. IpLocation and LocalIpSkipsLookup state its effect. |
| Visits.IpLocation | MyCloudSite/app.py:47-58 | The exact address `127.0.0.1` and any address starting with `192.168` or `10.` are labelled local. Other loopback addresses, `::1` included, go to the lookup. Otherwise a failed lookup gives "未知位置", and a successful one gives "country region city". The local label appears exactly for local addresses. |
| Visits.LocalIpSkipsLookup | MyCloudSite/app.py:48-49 | For a local address the lookup's answer is never used. |
| Visits.CountPlays | MyCloudSite/app.py:252-253 | The play count is at most the number of rows. It equals that number iff every label contains 播放, and it is 0 iff none does. |
| Visits.CountPlaysConcat | MyCloudSite/app.py:253 | The play count of two runs of rows is the sum of their counts. With the one-row case of CountPlays, this makes the count exactly the number of labels containing 播放. |
| Visits.VisitLabel | MyCloudSite/app.py:202-223 | No contract: the labels `首页访问`, `搜索: {keyword}` and `播放: ID-{id} 集-{ep_index}`. PlayLabelMarked, SearchCountedAsPlay and CountPlayLabelsExact state what they mean for the counts. |
| Visits.PlayLabelMarked | MyCloudSite/app.py:223 | Every `/play` label starts with "播放:" and therefore contains 播放. |
| Visits.PlaysBetweenPlayVisitsAndPageViews | MyCloudSite/app.py:252-254 | Over the logged rows, the play count misses no logged `/play` request and never exceeds the page views. |
| Visits.SearchCountedAsPlay | MyCloudSite/app.py:214 | A search for 播放 is counted as a play. |
| Visits.CountPlayLabels | MyCloudSite/app.py:253 | The corrected play count never exceeds the number of rows. |
| Visits.CountPlayLabelsExact | MyCloudSite/app.py:202-253 | Counting the labels that start with "播放:" gives exactly the number of `/play` requests. |

## Left out

- HTTP requests, TLS and timeouts, and JSON decoding are foreign I/O. Their outcome is an `Option` input.
- The thread pool that downloads bundles is concurrency. Its completion order is the order of the `Fetched` input sequence.
- Background logging threads, the SQLite schema, inserts and migration are I/O and concurrency. Only the label each route logs is modelled. Requests from addresses listed in `ADMIN_IP_FILTER` are not logged (MyCloudSite/app.py:61). The list is empty as shipped (MyCloudSite/app.py:20). A failed insert is dropped (MyCloudSite/app.py:71). So the counts are over logged rows, not over all requests.
- The geolocation HTTP request is a parameter (`Option<GeoAnswer>`).
- `pytz` timestamps, the CSV export and the dashboard HTML rendering are I/O and formatting.
- Flask routing, templates, request parsing and `X-Forwarded-For` handling are framework I/O. `ep_index` arrives as an integer, and a missing or unparsable one reads as 0, as Flask's `type=int` does.
- The description's `<p>` stripping is a plain replace chain that feeds only the template.
- JSON values of unexpected types are not modelled. This covers a non-string name or URL, a boolean or float `type`, a null playlist key, and a non-dictionary site.
- A JSON `null` site `name` or `api` is treated as a missing key. In the extended application a `null` raises no KeyError at MyCloudSite/app.py:106, so that site would be kept with `api` None or the name "[prefix] None". The model drops the whole bundle instead, as it does for a missing key.
- A missing `vod_id`, `vod_name`, `vod_pic` or `vod_remarks` raises KeyError, which the handlers turn into "no result". In a search one such item empties the whole result (MyCloudSite/app.py:150, app.py:81). Here those fields are always present.
- PyStr.AsciiLower: Python's `str.lower()` also lower-cases non-ASCII letters. Only ASCII is modelled. This is exact for the `m3u8`/`hls` containment test, because no non-ASCII character lower-cases to an ASCII letter used there.
- Playlist.SelectPlaylistByContent: the contract only says the choice is an `.m3u8` segment or segment 0; ContentChoice carries the first-match rule.
- Playlist.SelectPlaylistByName: the contract only places the choice among the segments; NameChoice carries the precise rule.
- Registry.FilterSites: the contract gives only the kinds and tags kept; FilterSitesExact and FilterSitesConcat carry the exact per-site behaviour.
- Visits.CountPlayLabels: the contract gives only the bound; CountPlayLabelsExact carries the exact count.

## Findings

| source | as written | input that shows it | evidently intended | confidence | as-written member | corrected member |
|---|---|---|---|---|---|---|
| MyCloudSite/app.py:179-180, 226-227 | `/play` indexes `episodes[ep_index]` after the clamp even when the guarded split produced no episodes | a detail entry whose `vod_play_url` is missing or "" | show the failure message when there is no episode | not executed | Handlers.EmptyEpisodesCrashPlay | Handlers.PlaySafe |
| MyCloudSite/app.py:226-227, app.py:144-145 | the clamp only handles `ep_index >= len(episodes)`, so a negative index is passed to Python indexing | `ep_index = -len(episodes) - 1`, e.g. `ep_index=-5` for one episode | fall back to episode 0 for any index outside the list | not executed | Handlers.FarNegativeIndexCrashesPlay | Handlers.PlaySafe |
| MyCloudSite/app.py:214, 253 | the play count counts every logged label containing 播放, including search labels | a search whose keyword is 播放 | count only the labels that `/play` writes (prefix "播放:") | not executed | Visits.SearchCountedAsPlay | Visits.CountPlayLabels |

=== FILE: handlers.dfy ===
/** The selection rules of the `/search` and `/play` routes. Rendering is
    not modelled; a route's outcome is the page it would choose. */
module Handlers {
  import opened Wrappers
  import opened Registry
  import opened Playlist
  import opened Upstream

  // ---- /search ----

  /** The endpoint searched: the form's `source_api` unless it is missing or
      empty, in which case the first registered source's, if there is one. */
  function SearchApi(formApi: Option<string>, sources: seq<Source>): (r: Option<string>)
    ensures formApi.Some? && formApi.value != "" ==> r == formApi
    ensures (formApi.None? || formApi == Some("")) && |sources| > 0 ==> r == sources[0].api
    ensures (formApi.None? || formApi == Some("")) && |sources| == 0 ==> r == formApi
  {
    if (formApi.None? || formApi == Some("")) && |sources| > 0 then sources[0].api else formApi
  }

  /** Whatever the bundles brought, a search without `source_api` goes to the
      LZI endpoint in both applications, because the built-ins come first and
      win deduplication. */
  lemma DefaultSearchIsLzi(formApi: Option<string>, fetchedBase: seq<Fetched>, fetchedExtended: seq<Fetched>)
    requires formApi.None? || formApi == Some("")
    ensures SearchApi(formApi, LoadSourcesBase(fetchedBase)) == Some(LziApi)
    ensures SearchApi(formApi, LoadSourcesExtended(fetchedExtended)) == Some(LziApi)
  {
    ExtendedBuiltinsDeduplicated();
    var r := LoadSourcesExtended(fetchedExtended);
    assert r[..4] == ExtendedBuiltins[..4];
    assert r[0] == r[..4][0];
  }

  // ---- /play ----

  /** The `ep_index` clamp: an index at or past the end becomes 0; any other
      index, a negative one included, is kept. */
  function ClampEpisodeIndex(epIndex: int, count: nat): (r: int)
    ensures r == epIndex || r == 0
    ensures epIndex < count ==> r == epIndex
    ensures 0 <= epIndex && count > 0 ==> 0 <= r < count
    ensures count == 0 ==> r <= 0
  {
    if epIndex >= count then 0 else epIndex
  }

  /** What `/play` renders. */
  datatype PlayPage =
    | Unavailable                            // the "video failed to load" message
    | Player(index: int, episode: Episode)   // the player on one episode
    | ServerError                            // an uncaught IndexError

  /** Python's `xs[i]`: a negative index counts from the end; an index outside
      [-|xs|, |xs|) raises IndexError. */
  function PyIndex<T>(xs: seq<T>, i: int): (r: Option<T>)
    ensures r.Some? <==> -|xs| <= i < |xs|
    ensures 0 <= i < |xs| ==> r == Some(xs[i])
    ensures -|xs| <= i < 0 ==> r == Some(xs[|xs| + i])
  {
    if 0 <= i < |xs| then Some(xs[i])
    else if -|xs| <= i < 0 then Some(xs[|xs| + i])
    else None
  }

  /** `/play` as written: clamp, then index the episode list. */
  function PlayAsWritten(detail: Option<VideoDetail>, epIndex: int): (r: PlayPage)
    ensures detail.None? <==> r == Unavailable
    ensures r.Player? ==> r.index == ClampEpisodeIndex(epIndex, |detail.value.episodes|)
    ensures detail.Some? && |detail.value.episodes| == 0 ==> r == ServerError
    ensures r.Player? ==> PyIndex(detail.value.episodes, r.index) == Some(r.episode)
    ensures detail.Some? ==>
      (r == ServerError <==> PyIndex(detail.value.episodes, ClampEpisodeIndex(epIndex, |detail.value.episodes|)).None?)
  {
    match detail
    case None => Unavailable
    case Some(d) =>
      var i := ClampEpisodeIndex(epIndex, |d.episodes|);
      match PyIndex(d.episodes, i)
      case None => ServerError
      case Some(e) => Player(i, e)
  }

  /** Counterexample: a detail entry without playlist text makes the
      extended application's `/play` fail with IndexError instead of showing
      the failure message. */
  lemma EmptyEpisodesCrashPlay(apiUrl: string, info: VodDetail, epIndex: int)
    requires PlayUrl(info) == ""
    ensures PlayAsWritten(DetailsExtended(apiUrl, Some([info])), epIndex) == ServerError
  {
    MissingPlaylist(apiUrl, info);
  }

  /** Counterexample: an `ep_index` below minus the episode count passes the
      clamp and fails with IndexError. */
  lemma FarNegativeIndexCrashesPlay(d: VideoDetail, epIndex: int)
    requires epIndex < -|d.episodes|
    ensures PlayAsWritten(Some(d), epIndex) == ServerError
  {
  }

  /** `/play` as evidently intended: an index outside the list falls back to
      the first episode, and a detail without episodes shows the failure
      message. It never fails. */
  function PlaySafe(detail: Option<VideoDetail>, epIndex: int): (r: PlayPage)
    ensures r != ServerError
    ensures r == Unavailable <==> detail.None? || |detail.value.episodes| == 0
    ensures r.Player? ==>
      var eps := detail.value.episodes;
      && 0 <= r.index < |eps| && r.episode == eps[r.index]
      && r.index == (if 0 <= epIndex < |eps| then epIndex else 0)
  {
    match detail
    case None => Unavailable
    case Some(d) =>
      if |d.episodes| == 0 then Unavailable
      else
        var i := if 0 <= epIndex < |d.episodes| then epIndex else 0;
        Player(i, d.episodes[i])
  }

  /** The corrected route differs from the written one only where the
      written one fails or selects by a negative index. */
  lemma PlaySafeAgrees(detail: Option<VideoDetail>, epIndex: int)
    requires detail.None? || |detail.value.episodes| > 0
    requires epIndex >= 0
    ensures PlaySafe(detail, epIndex) == PlayAsWritten(detail, epIndex)
  {
  }

  /** The base application always has an episode to show for a
      non-negative index. */
  lemma BasePlayNeverCrashes(apiUrl: string, list: Option<seq<VodDetail>>, epIndex: int)
    requires epIndex >= 0
    ensures PlayAsWritten(DetailsBase(apiUrl, list), epIndex) != ServerError
  {
  }
}

=== FILE: playlist.dfy ===
/** The delimiter-encoded playlist format of the upstream detail payload.

    `vod_play_url` bundles alternate playlists separated by `$$$`; a playlist
    lists episodes separated by `#`; an episode is a `$`-separated run of
    fields whose last field is the stream URL and whose second-to-last field,
    when there is one, is the display name. `vod_play_from` names the
    alternates, in the same order, separated by `$$$`. */
module Playlist {
  import opened Wrappers
  import opened PyStr

  const AlternateSep: string := "$$$"
  const EpisodeSep: char := '#'
  const FieldSep: char := '$'

  /** One playable entry: its 0-based position, display name and stream URL. */
  datatype Episode = Episode(index: nat, name: string, url: string)

  /** The display name given to an episode written without a name:
      "第{idx+1}集" ("episode idx+1"). */
  function FallbackName(idx: nat): (r: string)
    ensures FieldSep !in r && EpisodeSep !in r
    ensures |r| >= 3 && r[0] == '第' && r[|r| - 1] == '集'
    ensures var digits := r[1..|r| - 1];
      && (forall i :: 0 <= i < |digits| ==> IsDigit(digits[i]))
      && ParseDigits(digits) == idx + 1
    ensures r[1] != '0'
  {
    var n := NatToString(idx + 1);
    NatToStringRoundTrip(idx + 1);
    assert ("第" + n + "集")[1..|n| + 1] == n;
    "第" + n + "集"
  }

  /** The two last pieces of a join sit at its end, after a separator unless
      they are the only two pieces. */
  lemma LastTwoPieces(ps: seq<string>, sep: string)
    requires |ps| >= 2
    ensures || Join(ps, sep) == ps[|ps| - 2] + sep + ps[|ps| - 1]
            || EndsWith(Join(ps, sep), sep + ps[|ps| - 2] + sep + ps[|ps| - 1])
  {
    var n := |ps|;
    var init := ps[..n - 1];
    assert ps == init + [ps[n - 1]];
    JoinSnoc(init, ps[n - 1], sep);
    if n == 2 {
      assert init == [ps[0]];
    } else {
      var front := ps[..n - 2];
      assert init == front + [ps[n - 2]];
      JoinSnoc(front, ps[n - 2], sep);
      JoinEndsWithLastTwo(Join(ps, sep), Join(init, sep), Join(front, sep), sep, ps[n - 2], ps[n - 1]);
    }
  }

  /** Two joins in a row leave the last two pieces, each after a separator,
      at the end. */
  lemma JoinEndsWithLastTwo(j: string, ji: string, jf: string, sep: string, x: string, y: string)
    requires j == ji + sep + y && ji == jf + sep + x
    ensures EndsWith(j, sep + x + sep + y)
  {
    assert j == jf + (sep + x + sep + y);
    assert j[|jf|..] == sep + x + sep + y;
  }

  /** What `item.split("$")` says about an episode piece. */
  lemma PieceFields(item: string)
    ensures var parts := Split(item, [FieldSep]);
      && (forall k :: 0 <= k < |parts| ==> FieldSep !in parts[k])
      && (EpisodeSep !in item ==> forall k :: 0 <= k < |parts| ==> EpisodeSep !in parts[k])
      && (|parts| >= 2 <==> FieldSep in item)
      && (|parts| == 1 ==> parts[0] == item)
  {
    var parts := Split(item, [FieldSep]);
    ContainsChar(item, FieldSep);
    forall k | 0 <= k < |parts|
      ensures FieldSep !in parts[k]
      ensures EpisodeSep !in item ==> EpisodeSep !in parts[k]
    {
      ContainsChar(parts[k], FieldSep);
      if EpisodeSep in parts[k] {
        JoinKeepsChars(parts, [FieldSep], k, EpisodeSep);
      }
    }
  }

  /** One `#`-piece of a playlist read as an episode: the URL is the last
      `$`-field, the name the field before it; a piece without `$` is all URL
      and gets the fallback name. */
  function ParseEpisode(idx: nat, item: string): (e: Episode)
    ensures e.index == idx
    ensures FieldSep !in e.url && FieldSep !in e.name
    ensures FieldSep !in item ==> e.url == item && e.name == FallbackName(idx)
    ensures FieldSep in item ==>
      || item == e.name + [FieldSep] + e.url
      || EndsWith(item, [FieldSep] + e.name + [FieldSep] + e.url)
    ensures EpisodeSep !in item ==> EpisodeSep !in e.url && EpisodeSep !in e.name
  {
    var parts := Split(item, [FieldSep]);
    PieceFields(item);
    if |parts| >= 2 then
      var name, url := parts[|parts| - 2], parts[|parts| - 1];
      LastTwoPieces(parts, [FieldSep]);
      assert item == Join(parts, [FieldSep]);
      Episode(idx, name, url)
    else
      Episode(idx, FallbackName(idx), parts[0])
  }

  /** A playlist string split into its episodes, positions counted from 0. */
  function SplitEpisodes(playlist: string): (r: seq<Episode>)
    ensures |r| == multiset(playlist)[EpisodeSep] + 1
    ensures forall i :: 0 <= i < |r| ==> r[i].index == i
    ensures |r| == |Split(playlist, [EpisodeSep])|
    ensures forall i :: 0 <= i < |r| ==> r[i] == ParseEpisode(i, Split(playlist, [EpisodeSep])[i])
    ensures forall i :: 0 <= i < |r| ==>
      && FieldSep !in r[i].url && EpisodeSep !in r[i].url
      && FieldSep !in r[i].name && EpisodeSep !in r[i].name
  {
    var items := Split(playlist, [EpisodeSep]);
    SplitCharCount(playlist, EpisodeSep);
    PiecesLackChar(playlist, EpisodeSep);
    seq(|items|, i requires 0 <= i < |items| => ParseEpisode(i, items[i]))
  }

  /** No piece of a split on one character holds that character. */
  lemma PiecesLackChar(s: string, c: char)
    ensures forall k :: 0 <= k < |Split(s, [c])| ==> c !in Split(s, [c])[k]
  {
    var items := Split(s, [c]);
    forall k | 0 <= k < |items|
      ensures c !in items[k]
    {
      ContainsChar(items[k], c);
    }
  }

  /** The guarded episode split of the extended application: an empty
      playlist has no episodes. */
  function EpisodesIfPresent(playlist: string): (r: seq<Episode>)
    ensures playlist == "" <==> |r| == 0
    ensures playlist != "" ==> |r| == multiset(playlist)[EpisodeSep] + 1
    ensures playlist != "" ==> r == SplitEpisodes(playlist)
    ensures forall i :: 0 <= i < |r| ==> r[i].index == i
  {
    if playlist == "" then [] else SplitEpisodes(playlist)
  }

  /** Every field is free of both separators, and positions match. */
  predicate WellFormed(eps: seq<Episode>) {
    forall i :: 0 <= i < |eps| ==>
      && eps[i].index == i
      && FieldSep !in eps[i].name && EpisodeSep !in eps[i].name
      && FieldSep !in eps[i].url && EpisodeSep !in eps[i].url
  }

  /** The wire form of an episode list: `name$url` pieces joined by `#`. */
  function EncodePlaylist(eps: seq<Episode>): string {
    Join(seq(|eps|, i requires 0 <= i < |eps| => eps[i].name + [FieldSep] + eps[i].url), [EpisodeSep])
  }

  lemma EpisodeRoundTrip(e: Episode)
    requires FieldSep !in e.name && FieldSep !in e.url
    ensures ParseEpisode(e.index, e.name + [FieldSep] + e.url) == e
  {
    assert Join([e.name, e.url], [FieldSep]) == e.name + [FieldSep] + e.url;
    SplitJoinChar([e.name, e.url], FieldSep);
  }

  /** Parsing what EncodePlaylist wrote gives the episodes back. */
  lemma {:induction false} DecodeEncode(eps: seq<Episode>)
    requires |eps| >= 1 && WellFormed(eps)
    ensures SplitEpisodes(EncodePlaylist(eps)) == eps
  {
    var pieces := seq(|eps|, i requires 0 <= i < |eps| => eps[i].name + [FieldSep] + eps[i].url);
    forall k | 0 <= k < |pieces|
      ensures EpisodeSep !in pieces[k]
    {
      assert pieces[k] == eps[k].name + [FieldSep] + eps[k].url;
    }
    SplitJoinChar(pieces, EpisodeSep);
    var r := SplitEpisodes(EncodePlaylist(eps));
    assert |r| == |eps|;
    forall i | 0 <= i < |eps|
      ensures r[i] == eps[i]
    {
      EpisodeRoundTrip(eps[i]);
    }
  }

  /** The guarded split round-trips every list, the empty one included. */
  lemma DecodeEncodeIfPresent(eps: seq<Episode>)
    requires WellFormed(eps)
    ensures EpisodesIfPresent(EncodePlaylist(eps)) == eps
  {
    if |eps| >= 1 {
      var pieces := seq(|eps|, i requires 0 <= i < |eps| => eps[i].name + [FieldSep] + eps[i].url);
      var enc := EncodePlaylist(eps);
      assert enc == Join(pieces, [EpisodeSep]);
      assert pieces[0] == eps[0].name + [FieldSep] + eps[0].url;
      assert FieldSep in pieces[0];
      JoinKeepsChars(pieces, [EpisodeSep], 0, FieldSep);
      assert enc != "";
      DecodeEncode(eps);
    }
  }

  /** The unguarded split turns an empty playlist into a single nameless
      episode with an empty URL. */
  lemma EmptyPlaylistOneEpisode()
    ensures SplitEpisodes("") == [Episode(0, FallbackName(0), "")]
  {
    assert Split("", [EpisodeSep]) == [""];
    assert Split("", [FieldSep]) == [""];
  }

  /** A named piece `pre$name$url` yields that name and URL. */
  lemma ParseNamedEpisode(idx: nat, pre: string, name: string, url: string)
    requires FieldSep !in pre && FieldSep !in name && FieldSep !in url
    ensures ParseEpisode(idx, pre + [FieldSep] + name + [FieldSep] + url) == Episode(idx, name, url)
  {
    assert [pre, name, url][1..] == [name, url];
    assert [name, url][1..] == [url];
    assert Join([url], [FieldSep]) == url;
    assert Join([name, url], [FieldSep]) == name + [FieldSep] + url;
    var item := pre + [FieldSep] + name + [FieldSep] + url;
    assert Join([pre, name, url], [FieldSep]) == item;
    SplitJoinChar([pre, name, url], FieldSep);
    var parts := Split(item, [FieldSep]);
    assert parts == [pre, name, url];
    assert ParseEpisode(idx, item) == Episode(idx, parts[1], parts[2]);
  }

  /** A playlist of two pieces yields exactly those two episodes. */
  lemma TwoPieceEpisodes(a: string, b: string)
    requires EpisodeSep !in a && EpisodeSep !in b
    ensures SplitEpisodes(a + [EpisodeSep] + b) == [ParseEpisode(0, a), ParseEpisode(1, b)]
  {
    assert [a, b][1..] == [b];
    assert Join([a, b], [EpisodeSep]) == a + [EpisodeSep] + b;
    SplitJoinChar([a, b], EpisodeSep);
  }

  /** Two named episodes, each written `prefix$name$url`, parse to their
      names and URLs at positions 0 and 1. */
  lemma ExampleTwoEpisodes(playlist: string)
    requires playlist == "A$name1$url1#B$name2$url2"
    ensures SplitEpisodes(playlist) == [Episode(0, "name1", "url1"), Episode(1, "name2", "url2")]
  {
    ExampleFields();
    ParseNamedEpisode(0, "A", "name1", "url1");
    ParseNamedEpisode(1, "B", "name2", "url2");
    TwoPieceEpisodes("A$name1$url1", "B$name2$url2");
  }

  lemma ExampleFields()
    ensures "A$name1$url1" == "A" + [FieldSep] + "name1" + [FieldSep] + "url1"
    ensures "B$name2$url2" == "B" + [FieldSep] + "name2" + [FieldSep] + "url2"
    ensures forall f :: f in ["A", "name1", "url1", "B", "name2", "url2"] ==> FieldSep !in f
    ensures EpisodeSep !in "A$name1$url1" && EpisodeSep !in "B$name2$url2"
    ensures "A$name1$url1#B$name2$url2" == "A$name1$url1" + [EpisodeSep] + "B$name2$url2"
  {
  }

  // ---- choosing one alternate playlist ----

  /** `m` is the position of the first element satisfying `p`. */
  ghost predicate IsFirstMatch<T>(xs: seq<T>, p: T -> bool, m: int) {
    0 <= m < |xs| && p(xs[m]) && forall j :: 0 <= j < m ==> !p(xs[j])
  }

  /** The `for ...: if ...: break` search: the first position satisfying `p`. */
  function FirstIndex<T>(xs: seq<T>, p: T -> bool): (r: Option<nat>)
    ensures r.Some? ==> IsFirstMatch(xs, p, r.value)
    ensures r.None? ==> forall j :: 0 <= j < |xs| ==> !p(xs[j])
    decreases |xs|
  {
    if |xs| == 0 then None
    else if p(xs[0]) then Some(0)
    else match FirstIndex(xs[1..], p)
      case None => None
      case Some(j) => Some(j + 1)
  }

  /** An alternate that streams HLS, judged by its text. */
  predicate IsM3u8Chunk(chunk: string) {
    Contains(chunk, ".m3u8")
  }

  /** The extended application's choice: the first alternate mentioning
      `.m3u8`, else alternate 0. */
  function ContentChoice(chunks: seq<string>): (k: nat)
    requires |chunks| >= 1
    ensures k < |chunks|
    ensures forall m :: IsFirstMatch(chunks, IsM3u8Chunk, m) ==> k == m
    ensures (forall j :: 0 <= j < |chunks| ==> !IsM3u8Chunk(chunks[j])) ==> k == 0
  {
    match FirstIndex(chunks, IsM3u8Chunk)
    case Some(m) => m
    case None => 0
  }

  function SelectPlaylistByContent(vodPlayUrl: string): (r: string)
    ensures var chunks := Split(vodPlayUrl, AlternateSep);
      r in chunks && (IsM3u8Chunk(r) || r == chunks[0])
  {
    var chunks := Split(vodPlayUrl, AlternateSep);
    chunks[ContentChoice(chunks)]
  }

  /** An alternate whose source name announces HLS: "m3u8" or "hls" in its
      lower-cased name. */
  predicate IsHlsName(name: string) {
    var l := AsciiLower(name);
    Contains(l, "m3u8") || Contains(l, "hls")
  }

  /** The base application's choice: the position of the first HLS name if
      that playlist exists, else playlist 0. Later names are never read. */
  function NameChoice(playlists: seq<string>, names: seq<string>): (k: nat)
    requires |playlists| >= 1
    ensures k < |playlists|
    ensures forall m :: IsFirstMatch(names, IsHlsName, m) ==>
      k == (if m < |playlists| then m else 0)
    ensures (forall j :: 0 <= j < |names| ==> !IsHlsName(names[j])) ==> k == 0
  {
    match FirstIndex(names, IsHlsName)
    case Some(m) => if m < |playlists| then m else 0
    case None => 0
  }

  function SelectPlaylistByName(vodPlayUrl: string, vodPlayFrom: string): (r: string)
    ensures r in Split(vodPlayUrl, AlternateSep)
  {
    var playlists := Split(vodPlayUrl, AlternateSep);
    playlists[NameChoice(playlists, Split(vodPlayFrom, AlternateSep))]
  }

  /** Names after the first HLS name do not influence the choice. */
  lemma NamesAfterFirstMatchIgnored(playlists: seq<string>, names: seq<string>, names': seq<string>, m: nat)
    requires |playlists| >= 1
    requires IsFirstMatch(names, IsHlsName, m)
    requires m < |names'| && names'[..m + 1] == names[..m + 1]
    ensures NameChoice(playlists, names) == NameChoice(playlists, names')
  {
    assert names'[m] == names[..m + 1][m];
    forall j | 0 <= j < m
      ensures names'[j] == names[j]
    {
      assert names'[j] == names'[..m + 1][j];
    }
    assert IsFirstMatch(names', IsHlsName, m);
  }

  /** Of two alternates that `$$$` separates cleanly, the one mentioning
      `.m3u8` wins even when it comes second. */
  lemma SecondAlternateChosen(a: string, b: string)
    requires CleanPiece(a, AlternateSep) && CleanPiece(b, AlternateSep)
    requires !IsM3u8Chunk(a) && IsM3u8Chunk(b)
    ensures SelectPlaylistByContent(a + AlternateSep + b) == b
  {
    assert [a, b][1..] == [b];
    assert Join([a, b], AlternateSep) == a + AlternateSep + b;
    SplitJoin([a, b], AlternateSep);
    assert IsFirstMatch([a, b], IsM3u8Chunk, 1);
  }

  /** Of the alternates `seg0` and `seg1.m3u8`, only the second mentions
      `.m3u8`, and it is selected. */
  lemma ExampleSelection(vodPlayUrl: string)
    requires vodPlayUrl == "seg0$$$seg1.m3u8"
    ensures SelectPlaylistByContent(vodPlayUrl) == "seg1.m3u8"
  {
    if IsM3u8Chunk("seg0") {
      ContainsFirstChar("seg0", ".m3u8");
    }
    assert "seg1.m3u8"[4..9] == ".m3u8";
    assert OccursAt("seg1.m3u8", ".m3u8", 4);
    assert vodPlayUrl == "seg0" + AlternateSep + "seg1.m3u8";
    CleanWithoutLead("seg0", AlternateSep);
    CleanWithoutLead("seg1.m3u8", AlternateSep);
    SecondAlternateChosen("seg0", "seg1.m3u8");
  }
}

=== FILE: pystr.dfy ===
/** The few Python `str` operations the application relies on, written out so
    that their edge cases are explicit: substring search (`sub in s`),
    `s.startswith(p)`, `s.split(sep)` with a non-empty separator, `sep.join(ps)`,
    ASCII lower-casing and `str(n)` for integers. */
module PyStr {
  import opened Wrappers

  /** `sub` occurs in `s` at position `i`. */
  predicate OccursAt(s: string, sub: string, i: int) {
    0 <= i && i + |sub| <= |s| && s[i..i + |sub|] == sub
  }

  lemma OccursShift(s: string, sub: string, j: int)
    requires |s| > 0 && 0 <= j
    ensures OccursAt(s, sub, j + 1) <==> OccursAt(s[1..], sub, j)
  {
    if 0 <= j && j + 1 + |sub| <= |s| {
      assert s[1..][j..j + |sub|] == s[j + 1..j + 1 + |sub|];
    }
  }

  /** Position of the leftmost occurrence of `sub` in `s`, as `str.find`
      returns it (None where `find` returns -1). */
  function IndexOf(s: string, sub: string): (r: Option<nat>)
    ensures r.Some? ==> OccursAt(s, sub, r.value)
    ensures r.Some? ==> forall j :: 0 <= j < r.value ==> !OccursAt(s, sub, j)
    ensures r.None? ==> forall j :: !OccursAt(s, sub, j)
    decreases |s|
  {
    if |s| < |sub| then None
    else if s[..|sub|] == sub then Some(0)
    else
      var rest := IndexOf(s[1..], sub);
      assert forall j :: 1 <= j ==> (OccursAt(s, sub, j) <==> OccursAt(s[1..], sub, j - 1)) by {
        forall j | 1 <= j ensures OccursAt(s, sub, j) <==> OccursAt(s[1..], sub, j - 1) {
          OccursShift(s, sub, j - 1);
        }
      }
      assert !OccursAt(s, sub, 0);
      match rest
      case None => None
      case Some(j) => Some(j + 1)
  }

  /** Python's `sub in s`. */
  predicate Contains(s: string, sub: string) {
    IndexOf(s, sub).Some?
  }

  /** A one-character needle is contained exactly when that character is. */
  lemma ContainsChar(s: string, c: char)
    ensures Contains(s, [c]) <==> c in s
  {
    if c in s {
      var i :| 0 <= i < |s| && s[i] == c;
      assert s[i..i + 1] == [c];
      assert OccursAt(s, [c], i);
    }
    if Contains(s, [c]) {
      var i := IndexOf(s, [c]).value;
      assert s[i..i + 1] == [c];
      assert s[i] == c;
    }
  }

  /** Python's `s.startswith(prefix)`. */
  predicate StartsWith(s: string, prefix: string) {
    |prefix| <= |s| && s[..|prefix|] == prefix
  }

  /** Python's `s.endswith(suffix)`. */
  predicate EndsWith(s: string, suffix: string) {
    |suffix| <= |s| && s[|s| - |suffix|..] == suffix
  }

  lemma StartsWithContains(s: string, prefix: string)
    requires StartsWith(s, prefix)
    ensures Contains(s, prefix)
  {
    assert OccursAt(s, prefix, 0);
  }

  /** Python's `sep.join(ps)`. */
  function Join(ps: seq<string>, sep: string): string {
    if |ps| == 0 then ""
    else if |ps| == 1 then ps[0]
    else ps[0] + sep + Join(ps[1..], sep)
  }

  lemma {:induction false} JoinSnoc(ps: seq<string>, p: string, sep: string)
    requires |ps| >= 1
    ensures Join(ps + [p], sep) == Join(ps, sep) + sep + p
    decreases |ps|
  {
    if |ps| == 1 {
      assert ps + [p] == [ps[0], p];
      assert [ps[0], p][1..] == [p];
    } else {
      assert (ps + [p])[1..] == ps[1..] + [p];
      JoinSnoc(ps[1..], p, sep);
    }
  }

  /** Python's `s.split(sep)` for a non-empty `sep`: scan left to right, cut at
      each leftmost non-overlapping occurrence. */
  function Split(s: string, sep: string): (r: seq<string>)
    requires |sep| > 0
    ensures |r| >= 1
    ensures Join(r, sep) == s
    ensures forall k :: 0 <= k < |r| ==> !Contains(r[k], sep)
    ensures |r| == 1 <==> !Contains(s, sep)
    ensures forall k :: 0 <= k < |r| - 1 ==> CleanPiece(r[k], sep)
    decreases |s|
  {
    match IndexOf(s, sep)
    case None => [s]
    case Some(i) =>
      var rest := Split(s[i + |sep|..], sep);
      LeftmostCut(s, sep, i);
      assert ([s[..i]] + rest)[1..] == rest;
      [s[..i]] + rest
  }

  /** Cutting at the leftmost occurrence leaves a clean head, free of `sep`. */
  lemma LeftmostCut(s: string, sep: string, i: nat)
    requires |sep| > 0
    requires IndexOf(s, sep) == Some(i)
    ensures CleanPiece(s[..i], sep) && !Contains(s[..i], sep)
    ensures s == s[..i] + sep + s[i + |sep|..]
  {
    CutAround(s, sep, i);
    CutHeadClean(s, sep, i);
    CleanHasNoSep(s[..i], sep);
  }

  lemma CutAround(s: string, sep: string, i: nat)
    requires OccursAt(s, sep, i)
    ensures s == s[..i] + sep + s[i + |sep|..]
  {
    assert s == s[..i] + s[i..i + |sep|] + s[i + |sep|..];
  }

  /** The head before the leftmost occurrence, with the separator put back,
      has its own leftmost occurrence at the joint: Python cuts at the
      leftmost, non-overlapping occurrence. */
  lemma CutHeadClean(s: string, sep: string, i: nat)
    requires |sep| > 0 && OccursAt(s, sep, i)
    requires forall j :: 0 <= j < i ==> !OccursAt(s, sep, j)
    ensures CleanPiece(s[..i], sep)
  {
    var n := i + |sep|;
    var p := s[..n];
    NoEarlierInPrefix(s, sep, i, n);
    assert OccursAt(p, sep, i) by {
      assert p[i..n] == s[i..n];
    }
    IndexOfAt(p, sep, i);
    var h := s[..i];
    assert h + sep == p by {
      assert p == s[..i] + s[i..n];
    }
    CleanWhenJointIsLeftmost(h, sep, p);
  }

  lemma CleanWhenJointIsLeftmost(h: string, sep: string, p: string)
    requires h + sep == p && IndexOf(p, sep) == Some(|h|)
    ensures CleanPiece(h, sep)
  {
  }

  /** The prefix through an occurrence with none before it has no earlier one. */
  lemma NoEarlierInPrefix(s: string, sep: string, i: nat, n: nat)
    requires |sep| > 0 && n == i + |sep| <= |s|
    requires forall j :: 0 <= j < i ==> !OccursAt(s, sep, j)
    ensures forall j :: 0 <= j < i ==> !OccursAt(s[..n], sep, j)
  {
    var p := s[..n];
    forall j | 0 <= j < i
      ensures !OccursAt(p, sep, j)
    {
      assert !OccursAt(s, sep, j);
      assert p[j..j + |sep|] == s[j..j + |sep|];
    }
  }

  /** An occurrence with none before it is the leftmost one. */
  lemma IndexOfAt(s: string, sub: string, i: nat)
    requires OccursAt(s, sub, i)
    requires forall j :: 0 <= j < i ==> !OccursAt(s, sub, j)
    ensures IndexOf(s, sub) == Some(i)
  {
    var v := IndexOf(s, sub);
    assert v.Some?;
  }

  lemma SplitAbsent(s: string, sep: string)
    requires |sep| > 0
    requires !Contains(s, sep)
    ensures Split(s, sep) == [s]
  {
  }

  /** Splitting on one character yields one more piece than there are
      occurrences of that character. */
  lemma {:induction false} SplitCharCount(s: string, c: char)
    ensures |Split(s, [c])| == multiset(s)[c] + 1
    decreases |s|
  {
    match IndexOf(s, [c])
    case None =>
      ContainsChar(s, c);
      assert multiset(s)[c] == 0;
    case Some(i) =>
      var head := s[..i];
      var tail := s[i + 1..];
      assert s[i..i + 1] == [c];
      assert s == head + [c] + tail;
      assert Split(s, [c]) == [head] + Split(tail, [c]);
      LeftmostCut(s, [c], i);
      ContainsChar(head, c);
      SplitCharCount(tail, c);
      assert multiset(s) == multiset(head) + multiset([c]) + multiset(tail);
  }

  /** `p` followed by `sep` has its leftmost occurrence of `sep` exactly at
      the joint: `p` holds no `sep` and no proper prefix of `sep` dangles at
      its end. Such pieces survive a join followed by a split. */
  predicate CleanPiece(p: string, sep: string) {
    IndexOf(p + sep, sep) == Some(|p|)
  }

  /** A piece that never uses the separator's first character is clean. */
  lemma CleanWithoutLead(p: string, sep: string)
    requires |sep| > 0 && sep[0] !in p
    ensures CleanPiece(p, sep)
  {
    var s := p + sep;
    assert s[|p|..|p| + |sep|] == sep;
    assert OccursAt(s, sep, |p|);
    forall j | 0 <= j < |p|
      ensures !OccursAt(s, sep, j)
    {
      assert s[j] == p[j];
    }
  }

  /** For a one-character separator, clean means separator-free. */
  lemma CleanCharIff(p: string, c: char)
    ensures CleanPiece(p, [c]) <==> c !in p
  {
    if c !in p {
      CleanWithoutLead(p, [c]);
    } else {
      var j :| 0 <= j < |p| && p[j] == c;
      assert (p + [c])[j..j + 1] == [c];
      assert OccursAt(p + [c], [c], j);
    }
  }

  lemma CleanHasNoSep(p: string, sep: string)
    requires |sep| > 0 && CleanPiece(p, sep)
    ensures !Contains(p, sep)
  {
    if Contains(p, sep) {
      var j := IndexOf(p, sep).value;
      assert (p + sep)[j..j + |sep|] == p[j..j + |sep|];
      assert OccursAt(p + sep, sep, j);
    }
  }

  /** Joining clean pieces and splitting again gives the pieces back. */
  lemma {:induction false} SplitJoin(ps: seq<string>, sep: string)
    requires |sep| > 0 && |ps| >= 1
    requires forall k :: 0 <= k < |ps| ==> CleanPiece(ps[k], sep)
    ensures Split(Join(ps, sep), sep) == ps
    decreases |ps|
  {
    var s := Join(ps, sep);
    CleanHasNoSep(ps[0], sep);
    if |ps| > 1 {
      var n := |ps[0]|;
      var tail := Join(ps[1..], sep);
      var joint := ps[0] + sep;
      assert s == joint + tail;
      assert s[n..n + |sep|] == sep;
      assert OccursAt(s, sep, n);
      forall j | 0 <= j < n
        ensures !OccursAt(s, sep, j)
      {
        assert !OccursAt(joint, sep, j);
        assert s[j..j + |sep|] == joint[j..j + |sep|];
      }
      assert IndexOf(s, sep) == Some(n);
      assert s[..n] == ps[0];
      assert s[n + |sep|..] == tail;
      SplitJoin(ps[1..], sep);
      assert Split(s, sep) == [ps[0]] + ps[1..];
    }
  }

  /** The one-character case: pieces free of the separator character. */
  lemma SplitJoinChar(ps: seq<string>, c: char)
    requires |ps| >= 1
    requires forall k :: 0 <= k < |ps| ==> c !in ps[k]
    ensures Split(Join(ps, [c]), [c]) == ps
  {
    forall k | 0 <= k < |ps|
      ensures CleanPiece(ps[k], [c])
    {
      CleanCharIff(ps[k], c);
    }
    SplitJoin(ps, [c]);
  }

  /** A character in one of the pieces is a character of their join. */
  lemma {:induction false} JoinKeepsChars(ps: seq<string>, sep: string, k: int, c: char)
    requires 0 <= k < |ps| && c in ps[k]
    ensures c in Join(ps, sep)
    decreases |ps|
  {
    if |ps| > 1 && k > 0 {
      JoinKeepsChars(ps[1..], sep, k - 1, c);
    }
  }

  /** A needle that occurs starts with a character of the haystack. */
  lemma ContainsFirstChar(s: string, sub: string)
    requires |sub| > 0 && Contains(s, sub)
    ensures sub[0] in s
  {
    var i := IndexOf(s, sub).value;
    assert s[i] == s[i..i + |sub|][0];
  }

  /** ASCII case mapping; every other character is left alone. */
  function LowerChar(c: char): char {
    if 'A' <= c <= 'Z' then (c as int + 32) as char else c
  }

  /** Python's `s.lower()` restricted to ASCII letters. */
  function AsciiLower(s: string): (r: string)
    ensures |r| == |s|
    ensures forall i :: 0 <= i < |r| ==> !('A' <= r[i] <= 'Z')
    ensures forall i :: 0 <= i < |r| && !('A' <= s[i] <= 'Z') ==> r[i] == s[i]
    ensures forall i :: 0 <= i < |r| && 'A' <= s[i] <= 'Z' ==> r[i] as int == s[i] as int + 32
  {
    seq(|s|, i requires 0 <= i < |s| => LowerChar(s[i]))
  }

  function DigitChar(d: nat): char
    requires d < 10
  {
    "0123456789"[d]
  }

  predicate IsDigit(c: char) {
    '0' <= c <= '9'
  }

  /** Python's `str(n)` for a non-negative integer: decimal, no leading zero. */
  function NatToString(n: nat): (r: string)
    ensures |r| >= 1
    ensures forall i :: 0 <= i < |r| ==> IsDigit(r[i])
    ensures r[0] == '0' ==> n == 0 && r == "0"
    decreases n
  {
    if n < 10 then [DigitChar(n)]
    else NatToString(n / 10) + [DigitChar(n % 10)]
  }

  /** Reads a run of decimal digits back as a number. */
  function ParseDigits(s: string): nat
    requires forall i :: 0 <= i < |s| ==> IsDigit(s[i])
    decreases |s|
  {
    if |s| == 0 then 0
    else
      assert IsDigit(s[|s| - 1]);
      ParseDigits(s[..|s| - 1]) * 10 + (s[|s| - 1] as int - '0' as int)
  }

  lemma {:induction false} NatToStringRoundTrip(n: nat)
    ensures ParseDigits(NatToString(n)) == n
    decreases n
  {
    var r := NatToString(n);
    if n >= 10 {
      NatToStringRoundTrip(n / 10);
      assert r[..|r| - 1] == NatToString(n / 10);
    }
  }

  /** Python's `str(i)` for any integer. */
  function IntToString(i: int): (r: string)
    ensures |r| >= 1
    ensures i < 0 <==> r[0] == '-'
    ensures var d := if i < 0 then r[1..] else r;
      && |d| >= 1
      && (forall k :: 0 <= k < |d| ==> IsDigit(d[k]))
      && (d[0] == '0' ==> d == "0")
      && ParseDigits(d) == (if i < 0 then -i else i)
  {
    var m := if i < 0 then -i else i;
    var d := NatToString(m);
    NatToStringRoundTrip(m);
    if i < 0 then
      assert ("-" + d)[1..] == d;
      "-" + d
    else d
  }
}

=== FILE: registry.dfy ===
/** The source registry built once at start-up: the built-in aggregator
    endpoints, followed by the sites of each downloaded TVBox bundle (in the
    order the downloads completed), deduplicated by `api` so that the first
    entry for an endpoint wins. */
module Registry {
  import opened Wrappers
  import opened PyStr

  /** One aggregator endpoint. `api` is optional because a bundle site
      without an `api` key is carried along as `None` by the base application. */
  datatype Source = Source(name: string, api: Option<string>, siteType: int)

  /** One entry of a bundle's `sites` list; every key may be missing. A JSON
      `null` value is read as a missing key. */
  datatype BundleSite = BundleSite(name: Option<string>, api: Option<string>, siteType: Option<int>)

  /** One finished bundle download: the configured bundle name, used as the
      display prefix, and the decoded `sites` list. `sites` is None when the
      request failed, the status was not 200, the body was not JSON or it had
      no `sites` key; both applications then contribute no sources. */
  datatype Fetched = Fetched(prefix: string, sites: Option<seq<BundleSite>>)

  const LziApi: string := "https://cj.lziapi.com/api.php/provide/vod/from/lzm3u8/at/json"
  const BfApi: string := "https://bfzyapi.com/api.php/provide/vod/at/json"
  const FfApi: string := "https://cj.ffzyapi.com/api.php/provide/vod/at/json"
  const SnApi: string := "https://suoniapi.com/api.php/provide/vod/at/json"

  /** The built-in list of the base application. */
  const BaseBuiltins: seq<Source> := [Source("默认资源 (LZI)", Some(LziApi), 1)]

  /** The built-in list of the extended application; its first and last
      entries name the same endpoint. */
  const ExtendedBuiltins: seq<Source> := [
    Source("默认资源 (LZI)", Some(LziApi), 1),
    Source("暴风资源 (BF)", Some(BfApi), 1),
    Source("非凡资源 (FF)", Some(FfApi), 1),
    Source("索尼资源 (SN)", Some(SnApi), 1),
    Source("量子资源 (LZ)", Some(LziApi), 1)
  ]

  // ---- reading a bundle ----

  /** The site kinds both applications accept: `type` 0 or 1. */
  predicate IsVodType(t: Option<int>) {
    t == Some(0) || t == Some(1)
  }

  /** How an f-string prints a value that may be missing. */
  function ShowName(n: Option<string>): string {
    match n
    case Some(s) => s
    case None => "None"
  }

  /** The display name of a bundle site: "[prefix] name". */
  function Tagged(prefix: string, name: string): (r: string)
    ensures StartsWith(r, "[" + prefix + "] ")
    ensures |r| == |prefix| + |name| + 3
    ensures r[|prefix| + 3..] == name
  {
    var tag := "[" + prefix + "] ";
    assert (tag + name)[..|tag|] == tag;
    tag + name
  }

  function Rename(prefix: string, site: BundleSite): Source
    requires IsVodType(site.siteType)
  {
    Source(Tagged(prefix, ShowName(site.name)), site.api, site.siteType.value)
  }

  /** The base application's bundle filter: the sites of type 0 or 1, in
      order, each renamed "[prefix] name" with `api` and `type` kept. */
  function FilterSites(prefix: string, sites: seq<BundleSite>): (r: seq<Source>)
    ensures |r| <= |sites|
    ensures forall i :: 0 <= i < |r| ==>
      (r[i].siteType == 0 || r[i].siteType == 1) && StartsWith(r[i].name, "[" + prefix + "] ")
    decreases |sites|
  {
    if |sites| == 0 then []
    else
      (if IsVodType(sites[0].siteType) then [Rename(prefix, sites[0])] else [])
      + FilterSites(prefix, sites[1..])
  }

  lemma {:induction false} FilterSitesConcat(prefix: string, a: seq<BundleSite>, b: seq<BundleSite>)
    ensures FilterSites(prefix, a + b) == FilterSites(prefix, a) + FilterSites(prefix, b)
    decreases |a|
  {
    if |a| > 0 {
      assert (a + b)[1..] == a[1..] + b;
      FilterSitesConcat(prefix, a[1..], b);
    } else {
      assert a + b == b;
    }
  }

  /** The filter keeps exactly the sites of type 0 or 1, renamed, where they
      stood: any one site contributes its renamed self or nothing, between
      the contributions of the sites around it. */
  lemma FilterSitesExact(prefix: string, before: seq<BundleSite>, site: BundleSite, after: seq<BundleSite>)
    ensures FilterSites(prefix, before + [site] + after)
         == FilterSites(prefix, before)
            + (if IsVodType(site.siteType) then [Rename(prefix, site)] else [])
            + FilterSites(prefix, after)
  {
    FilterSitesConcat(prefix, before + [site], after);
    FilterSitesConcat(prefix, before, [site]);
    assert [site][1..] == [];
  }

  /** A kept site lacks `name` or `api`: the extended application's list
      comprehension raises KeyError on it and the whole bundle is dropped. */
  predicate KeptSiteIncomplete(sites: seq<BundleSite>) {
    exists j :: 0 <= j < |sites| && IsVodType(sites[j].siteType) && (sites[j].name.None? || sites[j].api.None?)
  }

  lemma {:induction false} FilterSitesCompleteApis(prefix: string, sites: seq<BundleSite>)
    requires !KeptSiteIncomplete(sites)
    ensures forall i :: 0 <= i < |FilterSites(prefix, sites)| ==> FilterSites(prefix, sites)[i].api.Some?
    decreases |sites|
  {
    if |sites| > 0 {
      assert !KeptSiteIncomplete(sites[1..]) by {
        forall j | 0 <= j < |sites[1..]|
          ensures !(IsVodType(sites[1..][j].siteType) && (sites[1..][j].name.None? || sites[1..][j].api.None?))
        {
          assert sites[1..][j] == sites[j + 1];
        }
      }
      FilterSitesCompleteApis(prefix, sites[1..]);
    }
  }

  /** The extended application's bundle filter: the same renaming, but all
      or nothing, and every source it yields has an endpoint. */
  function FilterSitesStrict(prefix: string, sites: seq<BundleSite>): (r: seq<Source>)
    ensures KeptSiteIncomplete(sites) ==> r == []
    ensures !KeptSiteIncomplete(sites) ==> r == FilterSites(prefix, sites)
    ensures forall i :: 0 <= i < |r| ==> r[i].api.Some?
  {
    if KeptSiteIncomplete(sites) then []
    else
      FilterSitesCompleteApis(prefix, sites);
      FilterSites(prefix, sites)
  }

  function BundleSourcesBase(f: Fetched): seq<Source> {
    match f.sites
    case None => []
    case Some(ss) => FilterSites(f.prefix, ss)
  }

  function BundleSourcesExtended(f: Fetched): seq<Source> {
    match f.sites
    case None => []
    case Some(ss) => FilterSitesStrict(f.prefix, ss)
  }

  /** All fetched sources, bundle after bundle in completion order. */
  function AllFetchedBase(fetched: seq<Fetched>): seq<Source>
    decreases |fetched|
  {
    if |fetched| == 0 then [] else BundleSourcesBase(fetched[0]) + AllFetchedBase(fetched[1..])
  }

  function AllFetchedExtended(fetched: seq<Fetched>): (r: seq<Source>)
    ensures forall i :: 0 <= i < |r| ==> r[i].api.Some?
    decreases |fetched|
  {
    if |fetched| == 0 then [] else BundleSourcesExtended(fetched[0]) + AllFetchedExtended(fetched[1..])
  }

  // ---- deduplication by api ----

  function Apis(xs: seq<Source>): set<Option<string>> {
    set i | 0 <= i < |xs| :: xs[i].api
  }

  lemma ApisSnoc(xs: seq<Source>, x: Source)
    ensures Apis(xs + [x]) == Apis(xs) + {x.api}
  {
    var ys := xs + [x];
    forall k | k in Apis(ys)
      ensures k in Apis(xs) + {x.api}
    {
      var i :| 0 <= i < |ys| && ys[i].api == k;
      if i < |xs| {
        assert xs[i].api == k;
      }
    }
    forall k | k in Apis(xs) + {x.api}
      ensures k in Apis(ys)
    {
      if k == x.api {
        assert ys[|xs|].api == k;
      } else {
        var i :| 0 <= i < |xs| && xs[i].api == k;
        assert ys[i].api == k;
      }
    }
  }

  lemma ApisConcat(a: seq<Source>, b: seq<Source>)
    ensures Apis(a + b) == Apis(a) + Apis(b)
  {
    var ab := a + b;
    forall k | k in Apis(ab)
      ensures k in Apis(a) + Apis(b)
    {
      var i :| 0 <= i < |ab| && ab[i].api == k;
      if i < |a| {
        assert a[i].api == k;
      } else {
        assert b[i - |a|].api == k;
      }
    }
    forall k | k in Apis(a) + Apis(b)
      ensures k in Apis(ab)
    {
      if k in Apis(a) {
        var i :| 0 <= i < |a| && a[i].api == k;
        assert ab[i].api == k;
      } else {
        var i :| 0 <= i < |b| && b[i].api == k;
        assert ab[|a| + i].api == k;
      }
    }
  }

  predicate NoDuplicateApis(xs: seq<Source>) {
    forall i, j :: 0 <= i < j < |xs| ==> xs[i].api != xs[j].api
  }

  /** The reference deduplication: every entry whose `api` has not been seen
      earlier in the list, in list order. */
  function KeepFirst(xs: seq<Source>): seq<Source>
    decreases |xs|
  {
    if |xs| == 0 then []
    else
      var init := xs[..|xs| - 1];
      var last := xs[|xs| - 1];
      KeepFirst(init) + (if last.api in Apis(init) then [] else [last])
  }

  /** Position of the first entry with endpoint `k`. */
  function FirstWithApi(xs: seq<Source>, k: Option<string>): (p: nat)
    requires k in Apis(xs)
    ensures p < |xs| && xs[p].api == k
    ensures forall j :: 0 <= j < p ==> xs[j].api != k
    decreases |xs|
  {
    if xs[0].api == k then 0
    else
      assert k in Apis(xs[1..]) by {
        var i :| 0 <= i < |xs| && xs[i].api == k;
        assert xs[1..][i - 1].api == k;
      }
      1 + FirstWithApi(xs[1..], k)
  }

  lemma FirstWithApiUnique(xs: seq<Source>, k: Option<string>, p: nat)
    requires p < |xs| && xs[p].api == k
    requires forall j :: 0 <= j < p ==> xs[j].api != k
    ensures k in Apis(xs) && FirstWithApi(xs, k) == p
  {
    assert k in Apis(xs);
  }

  lemma FirstWithApiSnoc(xs: seq<Source>, x: Source, k: Option<string>)
    requires k in Apis(xs)
    ensures k in Apis(xs + [x]) && FirstWithApi(xs + [x], k) == FirstWithApi(xs, k)
  {
    var p := FirstWithApi(xs, k);
    assert (xs + [x])[p] == xs[p];
    FirstWithApiUnique(xs + [x], k, p);
  }

  /** What the deduplicated list promises: every endpoint of the input
      appears exactly once, each as the input's first entry for it, and in
      the order those first entries had. */
  ghost predicate KeepsFirstOccurrences(xs: seq<Source>, r: seq<Source>) {
    && Apis(r) == Apis(xs)
    && NoDuplicateApis(r)
    && (forall i :: 0 <= i < |r| ==> r[i].api in Apis(xs) && r[i] == xs[FirstWithApi(xs, r[i].api)])
    && (forall i, j :: 0 <= i < j < |r| && r[i].api in Apis(xs) && r[j].api in Apis(xs) ==>
          FirstWithApi(xs, r[i].api) < FirstWithApi(xs, r[j].api))
  }

  lemma {:induction false} KeepFirstApis(xs: seq<Source>)
    ensures Apis(KeepFirst(xs)) == Apis(xs)
    decreases |xs|
  {
    if |xs| > 0 {
      var init := xs[..|xs| - 1];
      var last := xs[|xs| - 1];
      assert xs == init + [last];
      KeepFirstApis(init);
      ApisSnoc(init, last);
      if last.api !in Apis(init) {
        assert KeepFirst(xs) == KeepFirst(init) + [last];
        ApisSnoc(KeepFirst(init), last);
      } else {
        assert KeepFirst(xs) == KeepFirst(init);
      }
    } else {
      assert Apis(xs) == {};
    }
  }

  lemma {:induction false} KeepFirstNoDuplicates(xs: seq<Source>)
    ensures NoDuplicateApis(KeepFirst(xs))
    decreases |xs|
  {
    if |xs| > 0 {
      var init := xs[..|xs| - 1];
      var last := xs[|xs| - 1];
      KeepFirstNoDuplicates(init);
      KeepFirstApis(init);
      var k := KeepFirst(init);
      if last.api !in Apis(init) {
        assert forall i :: 0 <= i < |k| ==> k[i].api in Apis(k);
      }
    }
  }

  lemma {:induction false} KeepFirstPositions(xs: seq<Source>)
    ensures forall i :: 0 <= i < |KeepFirst(xs)| ==>
      KeepFirst(xs)[i].api in Apis(xs) && KeepFirst(xs)[i] == xs[FirstWithApi(xs, KeepFirst(xs)[i].api)]
    ensures forall i, j :: 0 <= i < j < |KeepFirst(xs)| && KeepFirst(xs)[i].api in Apis(xs) && KeepFirst(xs)[j].api in Apis(xs) ==>
      FirstWithApi(xs, KeepFirst(xs)[i].api) < FirstWithApi(xs, KeepFirst(xs)[j].api)
    decreases |xs|
  {
    if |xs| > 0 {
      var init := xs[..|xs| - 1];
      var last := xs[|xs| - 1];
      assert xs == init + [last];
      KeepFirstPositions(init);
      var k := KeepFirst(init);
      forall i | 0 <= i < |k|
        ensures k[i].api in Apis(xs)
        ensures FirstWithApi(xs, k[i].api) == FirstWithApi(init, k[i].api)
      {
        FirstWithApiSnoc(init, last, k[i].api);
      }
      if last.api !in Apis(init) {
        FirstWithApiUnique(xs, last.api, |xs| - 1);
      }
    }
  }

  lemma KeepFirstSpec(xs: seq<Source>)
    ensures KeepsFirstOccurrences(xs, KeepFirst(xs))
  {
    KeepFirstApis(xs);
    KeepFirstNoDuplicates(xs);
    KeepFirstPositions(xs);
  }

  /** Built-ins come first, so the deduplicated built-ins are a prefix of the
      deduplicated registry and nothing fetched later reuses their endpoints. */
  lemma {:induction false} KeepFirstPrefix(a: seq<Source>, b: seq<Source>)
    ensures |KeepFirst(a)| <= |KeepFirst(a + b)|
    ensures KeepFirst(a + b)[..|KeepFirst(a)|] == KeepFirst(a)
    ensures forall i :: |KeepFirst(a)| <= i < |KeepFirst(a + b)| ==> KeepFirst(a + b)[i].api !in Apis(a)
    decreases |b|
  {
    if |b| == 0 {
      assert a + b == a;
    } else {
      var b' := b[..|b| - 1];
      var x := b[|b| - 1];
      assert a + b == (a + b') + [x];
      assert (a + b)[..|a + b| - 1] == a + b';
      KeepFirstPrefix(a, b');
      ApisConcat(a, b');
    }
  }

  // ---- the two loops of the applications ----

  /** The extended application's loop: remember the endpoints seen so far
      and keep an entry when its endpoint is new. */
  function SeenSetLoop(rest: seq<Source>, seen: set<Option<string>>, kept: seq<Source>): seq<Source>
    decreases |rest|
  {
    if |rest| == 0 then kept
    else if rest[0].api !in seen then SeenSetLoop(rest[1..], seen + {rest[0].api}, kept + [rest[0]])
    else SeenSetLoop(rest[1..], seen, kept)
  }

  function DedupSeenSet(xs: seq<Source>): seq<Source> {
    SeenSetLoop(xs, {}, [])
  }

  /** The base application's loop: start from the set of all endpoints and
      keep an entry when its endpoint is still pending, striking it off. */
  function RemovalLoop(rest: seq<Source>, pending: set<Option<string>>, kept: seq<Source>): seq<Source>
    decreases |rest|
  {
    if |rest| == 0 then kept
    else if rest[0].api in pending then RemovalLoop(rest[1..], pending - {rest[0].api}, kept + [rest[0]])
    else RemovalLoop(rest[1..], pending, kept)
  }

  function DedupByRemoval(xs: seq<Source>): seq<Source> {
    RemovalLoop(xs, Apis(xs), [])
  }

  /** The seen-set loop's invariant: after the prefix `done`, `seen` holds its
      endpoints and `kept` its deduplication. */
  lemma {:induction false} SeenSetLoopInvariant(done: seq<Source>, rest: seq<Source>)
    ensures SeenSetLoop(rest, Apis(done), KeepFirst(done)) == KeepFirst(done + rest)
    decreases |rest|
  {
    if |rest| == 0 {
      assert done + rest == done;
    } else {
      var s := rest[0];
      var done' := done + [s];
      assert done'[..|done'| - 1] == done;
      ApisSnoc(done, s);
      assert done' + rest[1..] == done + rest;
      SeenSetLoopInvariant(done', rest[1..]);
      if s.api in Apis(done) {
        assert Apis(done') == Apis(done);
        assert KeepFirst(done') == KeepFirst(done);
        assert SeenSetLoop(rest, Apis(done), KeepFirst(done)) == SeenSetLoop(rest[1..], Apis(done), KeepFirst(done));
      } else {
        assert KeepFirst(done') == KeepFirst(done) + [s];
      }
    }
  }

  lemma DedupSeenSetIsKeepFirst(xs: seq<Source>)
    ensures DedupSeenSet(xs) == KeepFirst(xs)
  {
    assert Apis([]) == {};
    assert [] + xs == xs;
    SeenSetLoopInvariant([], xs);
  }

  /** The removal loop tracks the seen-set loop while the pending set is the
      complement of the seen set on the endpoints still to come. */
  lemma {:induction false} RemovalTracksSeenSet(rest: seq<Source>, seen: set<Option<string>>,
                                                pending: set<Option<string>>, kept: seq<Source>)
    requires forall k :: k in Apis(rest) ==> (k in pending <==> k !in seen)
    ensures RemovalLoop(rest, pending, kept) == SeenSetLoop(rest, seen, kept)
    decreases |rest|
  {
    if |rest| > 0 {
      var s := rest[0];
      assert s.api in Apis(rest);
      assert rest == [s] + rest[1..];
      ApisConcat([s], rest[1..]);
      if s.api in pending {
        assert s.api !in seen;
        RemovalTracksSeenSet(rest[1..], seen + {s.api}, pending - {s.api}, kept + [s]);
      } else {
        assert s.api in seen;
        assert RemovalLoop(rest, pending, kept) == RemovalLoop(rest[1..], pending, kept);
        assert SeenSetLoop(rest, seen, kept) == SeenSetLoop(rest[1..], seen, kept);
        RemovalTracksSeenSet(rest[1..], seen, pending, kept);
      }
    }
  }

  /** The two applications' deduplication loops compute the same list. */
  lemma DedupLoopsAgree(xs: seq<Source>)
    ensures DedupByRemoval(xs) == DedupSeenSet(xs)
    ensures KeepsFirstOccurrences(xs, DedupByRemoval(xs))
  {
    RemovalTracksSeenSet(xs, {}, Apis(xs), []);
    DedupSeenSetIsKeepFirst(xs);
    KeepFirstSpec(xs);
  }

  // ---- the registry at start-up ----

  predicate AllHaveApis(xs: seq<Source>) {
    forall i :: 0 <= i < |xs| ==> xs[i].api.Some?
  }

  lemma ConcatHaveApis(a: seq<Source>, b: seq<Source>)
    requires AllHaveApis(a) && AllHaveApis(b)
    ensures AllHaveApis(a + b)
  {
    forall i | 0 <= i < |a + b|
      ensures (a + b)[i].api.Some?
    {
      if i >= |a| {
        assert (a + b)[i] == b[i - |a|];
      }
    }
  }

  lemma ExtendedInputsHaveApis(fetched: seq<Fetched>)
    ensures AllHaveApis(ExtendedBuiltins + AllFetchedExtended(fetched))
  {
    assert AllHaveApis(ExtendedBuiltins);
    ConcatHaveApis(ExtendedBuiltins, AllFetchedExtended(fetched));
  }

  /** The extended application's registry. */
  function LoadSourcesExtended(fetched: seq<Fetched>): (r: seq<Source>)
    ensures KeepsFirstOccurrences(ExtendedBuiltins + AllFetchedExtended(fetched), r)
    ensures |KeepFirst(ExtendedBuiltins)| <= |r| && r[..|KeepFirst(ExtendedBuiltins)|] == KeepFirst(ExtendedBuiltins)
    ensures forall i :: 0 <= i < |r| ==> r[i].api.Some?
  {
    var all := ExtendedBuiltins + AllFetchedExtended(fetched);
    DedupSeenSetIsKeepFirst(all);
    KeepFirstSpec(all);
    KeepFirstPrefix(ExtendedBuiltins, AllFetchedExtended(fetched));
    ExtendedInputsHaveApis(fetched);
    DedupSeenSet(all)
  }

  /** The base application's registry. */
  function LoadSourcesBase(fetched: seq<Fetched>): (r: seq<Source>)
    ensures KeepsFirstOccurrences(BaseBuiltins + AllFetchedBase(fetched), r)
    ensures |r| >= 1 && r[0] == BaseBuiltins[0]
  {
    var all := BaseBuiltins + AllFetchedBase(fetched);
    DedupLoopsAgree(all);
    DedupSeenSetIsKeepFirst(all);
    KeepFirstPrefix(BaseBuiltins, AllFetchedBase(fetched));
    assert KeepFirst(BaseBuiltins) == BaseBuiltins by {
      assert BaseBuiltins[..0] == [];
    }
    DedupByRemoval(all)
  }

  /** A list without repeated endpoints is its own deduplication. */
  lemma {:induction false} KeepFirstOfDistinct(xs: seq<Source>)
    requires NoDuplicateApis(xs)
    ensures KeepFirst(xs) == xs
    decreases |xs|
  {
    if |xs| > 0 {
      var n := |xs| - 1;
      var init := xs[..n];
      assert xs == init + [xs[n]];
      assert NoDuplicateApis(init) by {
        forall i, j | 0 <= i < j < |init|
          ensures init[i].api != init[j].api
        {
          assert init[i] == xs[i] && init[j] == xs[j];
        }
      }
      KeepFirstOfDistinct(init);
      assert xs[n].api !in Apis(init) by {
        forall i | 0 <= i < |init|
          ensures init[i].api != xs[n].api
        {
          assert init[i] == xs[i];
        }
      }
      KeepFirstSnoc(init, xs[n]);
    }
  }

  /** Appending an entry whose endpoint is already listed changes nothing. */
  lemma RepeatDropped(xs: seq<Source>, x: Source)
    requires x.api in Apis(xs)
    ensures KeepFirst(xs + [x]) == KeepFirst(xs)
  {
    KeepFirstSnoc(xs, x);
  }

  /** One more entry is kept exactly when its endpoint is new. */
  lemma KeepFirstSnoc(xs: seq<Source>, x: Source)
    ensures KeepFirst(xs + [x]) == KeepFirst(xs) + (if x.api in Apis(xs) then [] else [x])
  {
    assert (xs + [x])[..|xs|] == xs;
  }

  /** Deduplicating the extended built-ins drops the second LZI entry and
      keeps the other four in order. */
  lemma ExtendedBuiltinsDeduplicated()
    ensures KeepFirst(ExtendedBuiltins) == ExtendedBuiltins[..4]
  {
    var b := ExtendedBuiltins;
    var first := b[..4];
    assert b == first + [b[4]];
    assert NoDuplicateApis(first) by {
      assert LziApi != BfApi && LziApi != FfApi && LziApi != SnApi;
      assert BfApi != FfApi && BfApi != SnApi && FfApi != SnApi;
    }
    assert b[4].api in Apis(first) by {
      assert first[0].api == b[4].api;
    }
    RepeatDropped(first, b[4]);
    KeepFirstOfDistinct(first);
  }
}

=== FILE: upstream.dfy ===
/** What the applications make of an aggregator's decoded JSON answer. The
    HTTP request and the JSON decoding are not modelled: each function takes
    the decoded `list` (None when the request failed, the body was not JSON,
    or `list` was missing or null). */
module Upstream {
  import opened Wrappers
  import opened PyStr
  import opened Playlist

  /** One entry of a search answer's `list`. */
  datatype VodItem = VodItem(vodId: string, vodName: string, vodPic: string, vodRemarks: string)

  /** One search hit as handed to the results page, tagged with its endpoint. */
  datatype Movie = Movie(id: string, title: string, img: string, note: string, api: string)

  /** One entry of a detail answer's `list`; the two playlist keys may be
      missing and then read as "". */
  datatype VodDetail = VodDetail(vodId: string, vodName: string, vodPic: string,
                                 vodPlayUrl: Option<string>, vodPlayFrom: Option<string>)

  /** What the player page receives. */
  datatype VideoDetail = VideoDetail(id: string, title: string, pic: string, episodes: seq<Episode>, api: string)

  function ToMovie(apiUrl: string, item: VodItem): Movie {
    Movie(item.vodId, item.vodName, item.vodPic, item.vodRemarks, apiUrl)
  }

  /** `search_api`: one hit per list item, in list order, each tagged with the
      endpoint queried; no hits when there is no list. */
  function SearchResults(apiUrl: string, list: Option<seq<VodItem>>): (r: seq<Movie>)
    ensures list.None? ==> r == []
    ensures list.Some? ==> |r| == |list.value|
    ensures forall i :: 0 <= i < |r| ==> r[i].api == apiUrl
    ensures list.Some? ==> forall i :: 0 <= i < |r| ==>
      && r[i].id == list.value[i].vodId && r[i].title == list.value[i].vodName
      && r[i].img == list.value[i].vodPic && r[i].note == list.value[i].vodRemarks
  {
    match list
    case None => []
    case Some(items) => seq(|items|, i requires 0 <= i < |items| => ToMovie(apiUrl, items[i]))
  }

  /** The hits for a longer list extend the hits for its prefix: the mapping
      keeps the upstream order. */
  lemma SearchResultsKeepOrder(apiUrl: string, a: seq<VodItem>, b: seq<VodItem>)
    ensures SearchResults(apiUrl, Some(a + b)) == SearchResults(apiUrl, Some(a)) + SearchResults(apiUrl, Some(b))
  {
    var r := SearchResults(apiUrl, Some(a + b));
    var ra := SearchResults(apiUrl, Some(a));
    var rb := SearchResults(apiUrl, Some(b));
    forall i | 0 <= i < |r|
      ensures r[i] == (ra + rb)[i]
    {
      if i >= |a| {
        assert (a + b)[i] == b[i - |a|];
      }
    }
  }

  /** The playlist text of a detail entry; a missing key reads as "". */
  function PlayUrl(info: VodDetail): string {
    info.vodPlayUrl.GetOr("")
  }

  /** `get_video_details` of the extended application: the first alternate
      mentioning `.m3u8` (else the first), split into episodes unless empty. */
  function DetailsExtended(apiUrl: string, list: Option<seq<VodDetail>>): (r: Option<VideoDetail>)
    ensures r.Some? <==> list.Some? && |list.value| > 0
    ensures r.Some? ==>
      var info := list.value[0];
      && r.value.id == info.vodId && r.value.title == info.vodName
      && r.value.pic == info.vodPic && r.value.api == apiUrl
      && r.value.episodes == EpisodesIfPresent(SelectPlaylistByContent(PlayUrl(info)))
  {
    if list.None? || |list.value| == 0 then None
    else
      var info := list.value[0];
      Some(VideoDetail(info.vodId, info.vodName, info.vodPic,
                       EpisodesIfPresent(SelectPlaylistByContent(PlayUrl(info))), apiUrl))
  }

  /** `get_video_details` of the base application: the alternate named like
      HLS (else the first), always split into at least one episode. */
  function DetailsBase(apiUrl: string, list: Option<seq<VodDetail>>): (r: Option<VideoDetail>)
    ensures r.Some? <==> list.Some? && |list.value| > 0
    ensures r.Some? ==>
      var info := list.value[0];
      && r.value.id == info.vodId && r.value.title == info.vodName
      && r.value.pic == info.vodPic && r.value.api == apiUrl
      && r.value.episodes == SplitEpisodes(SelectPlaylistByName(PlayUrl(info), info.vodPlayFrom.GetOr("")))
    ensures r.Some? ==> |r.value.episodes| >= 1
  {
    if list.None? || |list.value| == 0 then None
    else
      var info := list.value[0];
      var playlist := SelectPlaylistByName(PlayUrl(info), info.vodPlayFrom.GetOr(""));
      Some(VideoDetail(info.vodId, info.vodName, info.vodPic, SplitEpisodes(playlist), apiUrl))
  }

  /** A detail entry without any playlist text gets no episodes from the
      extended application and one empty, nameless episode from the base one. */
  lemma MissingPlaylist(apiUrl: string, info: VodDetail)
    requires PlayUrl(info) == ""
    ensures DetailsExtended(apiUrl, Some([info])).value.episodes == []
    ensures DetailsBase(apiUrl, Some([info])).value.episodes == [Episode(0, FallbackName(0), "")]
  {
    assert Split("", AlternateSep) == [""];
    assert SelectPlaylistByContent("") == "";
    assert SelectPlaylistByName("", info.vodPlayFrom.GetOr("")) == "";
    EmptyPlaylistOneEpisode();
  }
}

=== FILE: visits.dfy ===
/** The pure parts of visit logging and the dashboard: the local-address
    rule of the geolocation step, the action labels the routes log, and the
    two headline counts. */
module Visits {
  import opened Wrappers
  import opened PyStr

  const LocalLabel: string := "内网/本地"
  const UnknownLabel: string := "未知位置"

  /** The addresses treated as local without any lookup. */
  predicate IsLocalIp(ip: string) {
    ip == "127.0.0.1" || StartsWith(ip, "192.168") || StartsWith(ip, "10.")
  }

  /** A successful geolocation answer. */
  datatype GeoAnswer = GeoAnswer(country: string, regionName: string, city: string)

  /** `get_ip_location`; the label names a local address exactly when the
      address is local, since an answered lookup always holds spaces.
      `lookup` is what the geolocation service would say
      (None for a failed request, a non-200 status, a non-"success" status or
      a malformed answer). */
  function IpLocation(ip: string, lookup: Option<GeoAnswer>): (r: string)
    ensures IsLocalIp(ip) ==> r == LocalLabel
    ensures !IsLocalIp(ip) && lookup.None? ==> r == UnknownLabel
    ensures !IsLocalIp(ip) && lookup.Some? ==>
      r == lookup.value.country + " " + lookup.value.regionName + " " + lookup.value.city
    ensures r == LocalLabel <==> IsLocalIp(ip)
  {
    if IsLocalIp(ip) then LocalLabel
    else match lookup
      case None => UnknownLabel
      case Some(g) =>
        var l := g.country + " " + g.regionName + " " + g.city;
        assert l[|g.country|] == ' ';
        assert ' ' !in LocalLabel;
        l
  }

  /** For a local address the lookup's answer is never consulted. */
  lemma LocalIpSkipsLookup(ip: string, a: Option<GeoAnswer>, b: Option<GeoAnswer>)
    requires IsLocalIp(ip)
    ensures IpLocation(ip, a) == IpLocation(ip, b) == LocalLabel
  {
  }

  /** The requests that are logged, and the label each one is logged under. */
  datatype Visit = Home | Search(keyword: string) | Play(vodId: string, epIndex: int)

  const PlayMarker: string := "播放"

  function VisitLabel(v: Visit): string {
    match v
    case Home => "首页访问"
    case Search(k) => "搜索: " + k
    case Play(id, ep) => PlayMarker + ": ID-" + id + " 集-" + IntToString(ep)
  }

  /** The dashboard's play count: the logged labels containing "播放". */
  function CountPlays(labels: seq<string>): (n: nat)
    ensures n <= |labels|
    ensures n == |labels| <==> forall i :: 0 <= i < |labels| ==> Contains(labels[i], PlayMarker)
    ensures n == 0 <==> forall i :: 0 <= i < |labels| ==> !Contains(labels[i], PlayMarker)
    decreases |labels|
  {
    if |labels| == 0 then 0
    else (if Contains(labels[0], PlayMarker) then 1 else 0) + CountPlays(labels[1..])
  }

  /** The play count adds up over consecutive runs of rows; with the
      one-row case of CountPlays' contract this fixes the count as the number
      of labels containing "播放". */
  lemma {:induction false} CountPlaysConcat(a: seq<string>, b: seq<string>)
    ensures CountPlays(a + b) == CountPlays(a) + CountPlays(b)
    decreases |a|
  {
    if |a| > 0 {
      assert (a + b)[0] == a[0];
      assert (a + b)[1..] == a[1..] + b;
      CountPlaysConcat(a[1..], b);
    } else {
      assert a + b == b;
    }
  }

  /** The dashboard's page views: one per logged row. */
  function PageViews(labels: seq<string>): nat {
    |labels|
  }

  function Labels(visits: seq<Visit>): (r: seq<string>)
    ensures |r| == |visits|
  {
    seq(|visits|, i requires 0 <= i < |visits| => VisitLabel(visits[i]))
  }

  /** The number of play requests among the visits. */
  function PlayVisits(visits: seq<Visit>): nat
    decreases |visits|
  {
    if |visits| == 0 then 0 else (if visits[0].Play? then 1 else 0) + PlayVisits(visits[1..])
  }

  lemma PlayLabelMarked(v: Visit)
    requires v.Play?
    ensures StartsWith(VisitLabel(v), PlayMarker + ":")
    ensures Contains(VisitLabel(v), PlayMarker)
  {
    var l := VisitLabel(v);
    assert l[..|PlayMarker + ":"|] == PlayMarker + ":";
    StartsWithContains(l, PlayMarker);
  }

  /** The play count never exceeds the page views and misses no play. */
  lemma {:induction false} PlaysBetweenPlayVisitsAndPageViews(visits: seq<Visit>)
    ensures PlayVisits(visits) <= CountPlays(Labels(visits)) <= PageViews(Labels(visits))
    decreases |visits|
  {
    if |visits| > 0 {
      var ls := Labels(visits);
      assert ls[1..] == Labels(visits[1..]);
      if visits[0].Play? {
        PlayLabelMarked(visits[0]);
      }
      PlaysBetweenPlayVisitsAndPageViews(visits[1..]);
    }
  }

  /** Counterexample: a search for "播放" is counted as a play. */
  lemma SearchCountedAsPlay()
    ensures PlayVisits([Search(PlayMarker)]) == 0
    ensures CountPlays(Labels([Search(PlayMarker)])) == 1
  {
    var l := VisitLabel(Search(PlayMarker));
    assert l[4..6] == PlayMarker;
    assert OccursAt(l, PlayMarker, 4);
    assert Labels([Search(PlayMarker)]) == [l];
    assert Labels([Search(PlayMarker)])[1..] == [];
  }

  /** The play count as evidently intended: labels that start with the play
      marker, which only `/play` writes. */
  function CountPlayLabels(labels: seq<string>): (n: nat)
    ensures n <= |labels|
    decreases |labels|
  {
    if |labels| == 0 then 0
    else (if StartsWith(labels[0], PlayMarker + ":") then 1 else 0) + CountPlayLabels(labels[1..])
  }

  /** The corrected count is exactly the number of play requests. */
  lemma {:induction false} CountPlayLabelsExact(visits: seq<Visit>)
    ensures CountPlayLabels(Labels(visits)) == PlayVisits(visits)
    decreases |visits|
  {
    if |visits| > 0 {
      var ls := Labels(visits);
      assert ls[1..] == Labels(visits[1..]);
      var v := visits[0];
      if v.Play? {
        PlayLabelMarked(v);
      } else {
        var l := VisitLabel(v);
        assert l[0] != PlayMarker[0];
      }
      CountPlayLabelsExact(visits[1..]);
    }
  }
}

=== FILE: wrappers.dfy ===
/** The optional value used wherever the application reads a key that may be
    missing (`dict.get`) or a call that may yield nothing. */
module Wrappers {

  datatype Option<+T> = None | Some(value: T) {

    /** The value when present, otherwise `default` (Python's `d.get(k, default)`). */
    function GetOr(default: T): T {
      match this
      case Some(v) => v
      case None => default
    }
  }
}
